=== FILE: README.md ===
# gpt-everywhere: the selection-capture and replacement engine

gpt-everywhere is a browser extension. When the user presses a shortcut, it
finds the focused element and captures what is selected in it. It then shows
an overlay pre-filled with that text and sends "instruction: context" to a
completion API. The cleaned answer is written back in place of the selection.
If it cannot be written back, the answer is shown in the overlay.

This project models that engine in Dafny, in two variants:

- `src/gptprompt.js` is the script the extension injects on each shortcut.
  Each injection runs one closure. The closure's `let` variables and the
  overlay's display flags are the fields of the class `PromptOverlay.Session`.
  Each event handler becomes a method: submit, a fetch settling, Escape,
  clicks, the two timers and the `transitionend` of the close.
- `content.js` is the earlier variant, written as a content script
  (`background.js` does not inject it) and triggered by Ctrl+Alt+. on any
  element. Its module-level state is
  the class `ContentScript.Page`.

The pieces both variants share are written as functions and lemmas:

| module | contents |
|---|---|
| `JsString` | JavaScript `substring`, with its clamping and index swapping; `trim`, over any whitespace predicate, with `IsJsSpace` as the ECMAScript one; `replace(/"/g, '')` |
| `Dom` | Elements, whose parent and nested active-element links are constants bounded by ghost measures; `getActiveElement`; `closest('[contenteditable]')`; the document's selection; `AbortController`; the settled fetch |
| `Capture` | Classification of the resolved element, the capture span, the temporary `tabindex` and its removal |
| `Completion` | The prompt built by the submit handler, and the cleaning of the returned text |
| `Replacement` | The splice of the completion into a value-bearing element |

The state a handler changes in place is written imperatively:

- an element's `value`;
- its `tabindex` and `data-gpt-remove-tabindex` attributes;
- the session fields and the document selection.

Each such method's `ensures` ties the new state to the functions above. The
properties of those functions are proved as lemmas.

Outside effects become data. The prompts sent are appended to `sent`. Alerts
are appended to `alerts`. Each outstanding fetch sits in `pending`: as its
`AbortController` for `src/gptprompt.js`, or as a request number for
`content.js`. The outcome of a fetch, and whether
`execCommand('insertText')` or `execCommand('copy')` succeeded, are
parameters of the event methods.

### Behaviour worth knowing

The model follows the code in every case below.

- **Stale responses.** A second submit does not abort the first request:
  `gptCompletion` puts a new `AbortController` in the slot without aborting
  the previous one (src/gptprompt.js:549). So when the first response
  arrives after a second submit, it is still spliced into the element, even
  though a newer request is out. `PromptOverlay.SupersededResponseStillWrites`
  proves this. Removing the overlay does not stop it either: a fetch of an
  earlier injection still writes into its element after a new injection
  (`PromptOverlay.DetachedSessionStillWrites`).
- **The spinner after a failed fetch.** The end event of a rejected fetch
  (including an aborted one) is dispatched on the shadow root
  (src/gptprompt.js:644). The only listener is on the iframe document
  (src/gptprompt.js:655), so the spinner stays visible. In `content.js`
  both paths dispatch on the shadow root, where the listener is, so the
  spinner is hidden after any settle.
- **A plain element inside a `[contenteditable]` ancestor.** The ancestor is
  assigned to the `const` declared at src/gptprompt.js:402 (line 418).
  Assigning to a `const` throws a `TypeError`, so the script stops before making
  the element focusable, capturing anything or showing the overlay; the
  ancestor never becomes the target. This is `Kind.ConstReassigned`.
  `content.js` has no such `const` and does take the ancestor.
- **Quotes.** The cleaning removes every `"` wherever it stands, not only
  quotes that wrap the answer (`Completion.CleanOutputIgnoresInnerQuote`).
- **Tabindex cleanup.** Open then close leaves an element's `tabindex` as it
  was, but an element that already had one keeps
  `data-gpt-remove-tabindex="false"` (`Capture.StripUndoesMake`).
- **Tabindex left by an abandoned overlay.** An overlay that a later
  injection removes never runs its close, so the `tabindex="0"` it added
  stays. The next capture finds that `tabindex`, flags it `'false'`, and
  every later close keeps it: the element stays focusable for good
  (`PromptOverlay.AbandonedOverlayKeepsTabindex`). A leftover `"true"` flag
  strips the `tabindex` on the next close only when the capture does not
  rewrite the flag, that is for an element that is editable then
  (`PromptOverlay.OpenThenClose`).

## Model

| member | source | states |
|---|---|---|
| JsString.Clamp | src/gptprompt.js:450 | An index clamped into `[0, len]`: a negative index becomes 0, one past the end becomes `len`, one in range is kept |
| JsString.IsJsSpace | src/gptprompt.js:593 | The ECMAScript WhiteSpace and LineTerminator code points, the characters `trim()` strips; a definition used by every trim lemma |
| JsString.Substring | src/gptprompt.js:450 | `substring` of in-range, ordered indices is exactly the slice; the result is never longer than the string |
| JsString.SubstringSymmetric | src/gptprompt.js:597 | `substring(a, b) == substring(b, a)` for all indices |
| JsString.TrimStart | src/gptprompt.js:593 | Drops leading whitespace; a definition whose properties `TrimStartSpec` states |
| JsString.TrimStartSpec | src/gptprompt.js:593 | The result is a suffix of the input; every dropped character is whitespace; the result does not start with whitespace |
| JsString.TrimEnd | src/gptprompt.js:593 | Drops trailing whitespace; a definition whose properties `TrimEndSpec` states |
| JsString.TrimEndSpec | src/gptprompt.js:593 | The result is a prefix of the input; every dropped character is whitespace; the result does not end with whitespace |
| JsString.Trim | src/gptprompt.js:593 | `trim()`: `TrimEnd` after `TrimStart`; a definition whose properties `TrimIsSlice` and `TrimCutsOnlySpace` state |
| JsString.TrimOffset | src/gptprompt.js:593 | Where the kept slice starts lies within the string |
| JsString.TrimIsSlice | src/gptprompt.js:593 | `trim` keeps one contiguous slice of the input, which neither starts nor ends with whitespace |
| JsString.TrimCutsOnlySpace | src/gptprompt.js:593 | Every character outside the kept slice, on either side, is whitespace |
| JsString.TrimKeepsOnly | src/gptprompt.js:593 | Every character of the trimmed string occurs in the input |
| JsString.TrimIdempotent | src/gptprompt.js:593 | Trimming twice is trimming once |
| JsString.TrimEmptyIffAllSpace | src/gptprompt.js:389 | `trim()` is empty exactly when every character is whitespace, in both directions |
| JsString.RemoveQuotes | src/gptprompt.js:590 | No `"` is left; the result is no longer than the input; only characters of the input occur in it |
| JsString.RemoveQuotesNoQuotes | src/gptprompt.js:590 | A string without quotes is returned unchanged |
| JsString.RemoveQuotesKeepsOthers | src/gptprompt.js:590 | Every character other than `"` keeps its exact number of occurrences |
| JsString.RemoveQuotesAppend | src/gptprompt.js:590 | Quote removal distributes over concatenation |
| Dom.GetActiveElement | src/gptprompt.js:532-545 | The walk ends (the nesting depth decreases) at an element with no nested active element, reachable from the start, no deeper than it |
| Dom.GetActiveElementIdempotent | src/gptprompt.js:532-545 | Resolving the resolved element returns it again |
| Dom.ShadowRootFirst | src/gptprompt.js:536-538 | With an active element in the shadow root, the result lies inside that shadow tree, whatever the embedded document holds |
| Dom.Closest | src/gptprompt.js:417 | Null exactly when no element on the parent chain carries `contenteditable`; otherwise a marked element on the chain |
| Dom.ClosestIsFirstMarked | src/gptprompt.js:417 | `closest` returns the first marked element of the chain, the element itself first |
| Dom.DocSelection.SelectAllChildren | src/gptprompt.js:458 | The selection now runs from offset 0 to the child count of the element and reads as its text |
| Dom.DocSelection.IsCollapsed | src/gptprompt.js:457 | `selection.isCollapsed`: anchor and focus are the same point; a definition |
| Dom.AbortController.Abort | src/gptprompt.js:505-507 | The controller is aborted |
| Capture.Classify | src/gptprompt.js:404-424 | Value-bearing iff the element has a `value`; content-editable iff not value-bearing and `isContentEditable`; otherwise the `const` reassignment throws exactly when some element on the parent chain carries `contenteditable`, and the element is not editable exactly when none does |
| Capture.ClassifyLegacy | content.js:51-63 | The target itself when it has a value or is content-editable; otherwise `closest('[contenteditable]')`, null exactly when no ancestor-or-self is marked; `isEditable` iff the element is not null |
| Capture.CaptureSpan | src/gptprompt.js:441-448 | The widened span; a collapsed result is the whole (empty) value. That a real range is kept and a caret widens is proved in `RangeCapturesSlice` and `CaretCapturesWholeValue` |
| Capture.CapturedText | src/gptprompt.js:450 | `substring` of the widened span; never longer than the value |
| Capture.CaretCapturesWholeValue | src/gptprompt.js:441-451 | A caret, or a null `selectionStart`/`selectionEnd`, widens to `[0, length)` and captures the whole value |
| Capture.RangeCapturesSlice | src/gptprompt.js:441-451 | A real range inside the value is kept and captures exactly `value[start..end)` |
| Capture.MakeFocusable | src/gptprompt.js:425-432 | An existing `tabindex` is kept and flagged `'false'`; a missing one becomes `"0"`, flagged `'true'` |
| Capture.StripFocusable | src/gptprompt.js:517-521 | Both attributes go exactly when the flag reads `'true'`; afterwards no `'true'` flag is left, and a remaining `tabindex` means nothing changed |
| Capture.StripUndoesMake | src/gptprompt.js:517-521 | After making focusable and then the close, the `tabindex` is the one from before; the flag is gone when the `tabindex` was added and stays `'false'` otherwise; attributes that were both absent are restored exactly |
| Capture.MakeFocusableTwice | src/gptprompt.js:425-432 | Making an element focusable a second time keeps its `tabindex` and flags it `'false'` |
| Completion.HasContextIffNotAllSpace | src/gptprompt.js:389 | The context counts exactly when some character of it is not whitespace |
| Completion.HasContext | src/gptprompt.js:389 | `textarea.trim().length > 0`; a definition characterised by `HasContextIffNotAllSpace` |
| Completion.BuildPrompt | src/gptprompt.js:383-395 | A prompt is produced exactly when the form is valid and the instruction is non-empty |
| Completion.PromptShape | src/gptprompt.js:388-394 | The prompt starts with the instruction; `": "` and the untrimmed context follow exactly when the context is not all whitespace; otherwise the prompt is the instruction alone |
| Completion.ContextAppended | src/gptprompt.js:389-393 | The same shape, stated against the `trim().length > 0` test |
| Completion.PromptWithoutContext | src/gptprompt.js:388-394 | `"Summarize"` with an empty or all-whitespace context is sent alone; an empty instruction sends nothing |
| Completion.PromptWithContext | src/gptprompt.js:389-390 | `"Summarize"` with context `"foo"` is sent as `"Summarize: foo"` |
| Completion.CleanOutput | src/gptprompt.js:587-593 | The cleaned text holds no `"`, neither starts nor ends with whitespace, and holds only characters of the response |
| Completion.CleanOutputIdempotent | src/gptprompt.js:590-593 | Cleaning a cleaned text changes nothing |
| Completion.CleanOutputIgnoresInnerQuote | src/gptprompt.js:590 | A `"` inserted anywhere, not only at the ends, does not change the cleaned text |
| Replacement.Splice | src/gptprompt.js:597 | For a span inside the value: the text before the span is kept, the span becomes the output, the text after it is kept, and the length changes by `|output| - (end - start)` |
| Replacement.SelectionAfterSet | src/gptprompt.js:597 | After the `value` setter: a changed value puts the caret at its end; an unchanged value, or an element reporting no selection, keeps its selection |
| Replacement.NextCaptureTakesWholeValue | src/gptprompt.js:441-450 | After a splice that changed the value, the next capture in that element takes the whole new value |
| Replacement.WholeFieldReplace | src/gptprompt.js:445-448 | After a caret capture the element holds exactly the output |
| Replacement.RangeReplace | src/gptprompt.js:597 | The value reads `prefix + captured + suffix` before and `prefix + output + suffix` after |
| Replacement.HelloThere | src/gptprompt.js:597 | `"hello world"` with `[6, 11)` selected captures `"world"`; `"there"` turns it into `"hello there"` with the caret at 11, so the next capture takes `"hello there"` |
| Replacement.SpliceCapturedIsIdentity | src/gptprompt.js:597 | Writing back the captured text leaves the value as it was |
| PromptOverlay.Session.Mount | src/gptprompt.js:8-46 | A fresh closure: nothing captured, no controller, the container in the page, the overlay hidden |
| PromptOverlay.Session.Phase | src/gptprompt.js:476-529 | The overlay's state: closed when removed or not displayed, closing while a close waits for its transition, open once faded in, opening before; a definition |
| PromptOverlay.Session.CaptureSelection | src/gptprompt.js:402-470 | Classification as `Classify` says; the `TypeError` exactly for a `[contenteditable]` ancestor, leaving the capture, the attributes, the selection and every overlay flag (display, fade-in, copy button, spinner listener, textarea) as they were; a non-editable element made focusable (and remembered); a value-bearing capture by `CaptureSpan`/`CapturedText`; otherwise the document selection, expanded when editable and collapsed; the overlay shown with the captured text |
| PromptOverlay.Session.CaptureAndShow | src/gptprompt.js:413-470 | The capture steps after a classification that did not throw, with the same results |
| PromptOverlay.Session.MakeCurrentFocusable | src/gptprompt.js:425-432 | The element's attributes become `MakeFocusable` of what they were, which is remembered |
| PromptOverlay.Session.CaptureValue | src/gptprompt.js:441-451 | The span is `CaptureSpan` of the element's selection and the text `CapturedText` |
| PromptOverlay.Session.CaptureDocument | src/gptprompt.js:453-462 | The text is the document selection's; a collapsed selection in an editable element is first expanded to all of it, any other selection is left as it is |
| PromptOverlay.Session.ShowSearchPrompt | src/gptprompt.js:476-497 | The textarea holds the context, the overlay is displayed, the fade-in is scheduled, the copy button is hidden |
| PromptOverlay.Session.EditContext | src/gptprompt.js:380 | The user's edit of the context field becomes the textarea value the submit handler reads |
| PromptOverlay.Session.Submit | src/gptprompt.js:376-397 | Nothing happens unless `BuildPrompt` yields a prompt; then a fresh, unaborted controller takes the slot without the old one being aborted, that prompt is sent, and the spinner shows |
| PromptOverlay.Session.Close | src/gptprompt.js:500-529 | The controller in the slot, if any, is aborted; `gpt-show` is removed; the transition listener is registered |
| PromptOverlay.Session.Settle | src/gptprompt.js:639-645 | The request leaves `pending`; an aborted or rejected fetch changes nothing else, the spinner and the element's value and selection included; a response is handled as `Respond` states; the element's `tabindex` and flag stay in every case |
| PromptOverlay.Session.Respond | src/gptprompt.js:573-578 | The spinner is hidden; an error status is alerted with its status and text and nothing else changes; otherwise the cleaned completion is delivered; the element's `tabindex` and flag stay either way |
| PromptOverlay.Session.Deliver | src/gptprompt.js:596-621 | Value-bearing: the value becomes `Splice` of the old value, the caret moves to its end when it changed (`SelectionAfterSet`), then the overlay closes; editable with `insertText` succeeding: value and selection untouched and the overlay closes; otherwise the textarea holds the output, the copy button is scheduled, the overlay stays as it is; `tabindex` and flag always stay |
| PromptOverlay.Session.TransitionEnd | src/gptprompt.js:510-526 | With a close pending: the overlay is hidden and removed and the element's attributes are `StripFocusable` of what they were, so the `tabindex` of an element the capture made focusable is the one from before; with no close pending, nothing changes; the element's value and selection stay either way |
| PromptOverlay.Session.Detach | src/gptprompt.js:36-38 | The container of an earlier injection is removed; its overlay counts as closed |
| PromptOverlay.Session.ShowTimeout | src/gptprompt.js:493-496 | A scheduled fade-in adds `gpt-show` |
| PromptOverlay.Session.CopyButtonTimeout | src/gptprompt.js:608-615 | A scheduled copy button appears |
| PromptOverlay.Session.KeyDown | src/gptprompt.js:326-335 | Escape closes the overlay; any other key changes nothing |
| PromptOverlay.Session.PromptClick | src/gptprompt.js:319-324 | A click on the backdrop closes the overlay; any other click changes nothing |
| PromptOverlay.Session.CopyClick | src/gptprompt.js:337-367 | A successful copy closes the overlay; a failed one changes nothing |
| PromptOverlay.Inject | src/gptprompt.js:28-46 | An earlier overlay is removed without its close path, and nothing else of its closure changes (capture, controller, pending fetches); the new session resolves the active element with `GetActiveElement` and captures as `CaptureSelection` states: `hasValue`, `isEditable` by `Classify`, span and text by `CaptureSpan`/`CapturedText` or from the document selection (expanded when editable and collapsed), a non-editable element made focusable by `MakeFocusable`; the `TypeError` captures nothing and leaves the selection alone; the overlay is opening unless the classification threw |
| PromptOverlay.OpenThenClose | src/gptprompt.js:425-432 | Opening and then closing the overlay leaves the element's `tabindex` as it was, unless a `'true'` flag the capture did not rewrite (an editable element) makes the close remove it |
| PromptOverlay.SupersededResponseStillWrites | src/gptprompt.js:549 | After a second submit, the first controller is still unaborted and its response is still spliced into the element |
| PromptOverlay.AbandonedOverlayKeepsTabindex | src/gptprompt.js:36-38 | An element without `tabindex` made focusable by an overlay that a second injection removed ends with `tabindex="0"` and the flag `'false'` after the second overlay closes |
| PromptOverlay.DetachedSessionStillWrites | src/gptprompt.js:573-597 | After a new injection removed the overlay, an unaborted fetch of the earlier session still splices its cleaned completion into that session's value-bearing element |
| ContentScript.Page.Load | content.js:3-19 | Nothing captured, the prompt and the spinner hidden, nothing pending |
| ContentScript.IsTrigger | content.js:39 | The trigger is `.` with both Ctrl and Alt held; a definition used by `Page.KeyDown` |
| ContentScript.Page.KeyDown | content.js:35-93 | The default is prevented exactly for `.` with Ctrl and Alt, and any other key changes nothing; the trigger classifies the target as `ClassifyLegacy` says, captures, and shows the prompt with the captured text |
| ContentScript.Page.Capture | content.js:41-88 | Value-bearing: span and text by `CaptureSpan`/`CapturedText`; editable otherwise: a collapsed selection is expanded to the element, anchor and focus are recorded in `selectionParameters`, and the text is the selection's; not editable: the text stays `''` and the selection and parameters are untouched |
| ContentScript.Page.ShowSearchPrompt | content.js:122-131 | The textarea holds the context, the prompt is displayed, the fade-in is scheduled |
| ContentScript.Page.EditContext | content.js:160 | The user's edit of the context field becomes the textarea value the submit handler reads |
| ContentScript.Page.Submit | content.js:156-177 | A fetch is started under a fresh identifier exactly when `BuildPrompt` yields a prompt; that prompt is sent and the spinner shows |
| ContentScript.Page.Close | content.js:134-139 | `gpt-show` is removed and the transition listener registered; nothing is aborted |
| ContentScript.Page.Settle | content.js:419-437 | The request leaves `pending` and the spinner is hidden whatever the outcome; a rejection changes nothing else; a response is handled as `Respond` states; the element's `tabindex` and flag always stay |
| ContentScript.Page.Respond | content.js:206-226 | An error status is alerted and nothing else changes; otherwise the cleaned completion is delivered; the element's `tabindex` and flag stay either way |
| ContentScript.Page.Deliver | content.js:228-254 | Value-bearing: the value becomes `Splice` of the old value, the caret moves to its end when it changed (`SelectionAfterSet`), and the prompt closes; any other target: the page, selection included, is untouched and the textarea holds the output; `tabindex` and flag always stay |
| ContentScript.Page.TransitionEnd | content.js:136-138 | A pending close hides the prompt |
| ContentScript.Page.ShowTimeout | content.js:126-128 | A scheduled fade-in adds `gpt-show` |
| ContentScript.Page.ShadowKeyDown | content.js:148-153 | Escape closes the prompt; any other key changes nothing |
| ContentScript.Page.ShadowClick | content.js:141-146 | A click on the backdrop closes the prompt; any other click changes nothing |

## Left out

- Chrome APIs: settings storage (`chrome.storage`), `options.js` and the shortcut wiring in `background.js`. The API key and debug flag only affect the request headers and logging.
- The HTML and CSS templates, and the random placeholder (src/gptprompt.js:66).
- The request itself: the endpoint, the JSON body and its parameters, and `response.json()`. A response is reduced to `ok`, `status`, `statusText` and `choices[0].text`. An abort that lands between the response and `response.json()` is not modelled.
- Focus: `focus()`, `select()`, and returning the cursor to the element after the close.
- Timing: timers and transitions are discrete events, and any interleaving of them is allowed. The copy button's glow animation is reduced to "a successful copy closes the overlay". The bounce animation, the `input` event and the textarea's auto-resize are left out.
- Console logging.
- Listener lifetime across injections. Each injection adds a `keydown` listener on `document` that is never removed. An Escape pressed later also runs the close of every earlier session; its effects on detached overlays are not modelled.
- The in-page insert. `execCommand('insertText')` is a boolean parameter, and where the text lands in the page is not modelled.
- Repeated close listeners. Several pending `transitionend` listeners, one per close, are one flag, because each does the same thing.
- Text offsets: JavaScript's `value.length`, `selectionStart`, `selectionEnd` and `substring` count UTF-16 code units, while a Dafny `string` holds Unicode scalar values. The offsets agree with the browser only for text without characters outside the Basic Multilingual Plane (an emoji before the selection shifts them).
- PromptOverlay.Session.Deliver: the `value` setter's sanitisation is not modelled. A single-line `<input>` drops line breaks from the spliced text and a `<textarea>` turns CRLF into LF; the model stores the splice as it is.
- PromptOverlay.Session.Respond: inherits the `Deliver` gap above, the value setter's sanitisation.
- PromptOverlay.Session.Settle: inherits the `Deliver` gap above, the value setter's sanitisation.
- ContentScript.Page.Deliver: the same `value` setter sanitisation is not modelled (content.js:230).
- ContentScript.Page.Respond: inherits the `Deliver` gap above, the value setter's sanitisation.
- ContentScript.Page.Settle: inherits the `Deliver` gap above, the value setter's sanitisation.
- Non-string values: `typeof value !== "undefined"` also holds for elements whose `value` is a number (`<li>`, `<progress>`, `<meter>`). For them `substring` is not a function, so the capture throws a `TypeError` (src/gptprompt.js:450, content.js:76) and the overlay never shows. The model's `value` is always a string, so it captures and opens the overlay for such elements.
- PromptOverlay.Session.Submit: the form's own validity check is the boolean `formValid`, not a model of the `required` attribute.

=== FILE: capture.dfy ===
/**
 * Classifying the resolved element and capturing what is selected in it,
 * plus the temporary focusability that the overlay adds and later strips.
 */
module Capture {
  import opened Wrappers
  import opened JsString
  import opened Dom

  /**
   * How `src/gptprompt.js` treats the resolved element. `ConstReassigned` is
   * the run in which `closest('[contenteditable]')` finds an element: the
   * script then assigns to the `const` holding the element, which throws a
   * `TypeError` before the element is made focusable or anything is captured.
   */
  datatype Kind = ValueBearing | ContentEditable | ConstReassigned(marked: Element) | NotEditable
  {
    /** The `isEditable` flag the script sets on the paths that do not throw. */
    predicate IsEditable()
    {
      ValueBearing? || ContentEditable?
    }
  }

  function Classify(e: Element): (k: Kind)
    requires AncestryFinite(e)
    ensures k.ValueBearing? <==> e.hasValueProperty
    ensures k.ContentEditable? <==> !e.hasValueProperty && e.isContentEditable
    ensures k.ConstReassigned? ==> k.marked.contentEditableAttribute && k.marked in AncestorsOrSelf(e)
    ensures k.NotEditable? <==>
      !e.hasValueProperty && !e.isContentEditable
      && forall a :: a in AncestorsOrSelf(e) ==> !a.contentEditableAttribute
  {
    if e.hasValueProperty then ValueBearing
    else if e.isContentEditable then ContentEditable
    else
      var marked := Closest(e);
      if marked != null then ConstReassigned(marked) else NotEditable
  }

  /** The element `content.js` keeps as `activeElement`, and its `isEditable`. */
  datatype LegacyTarget = LegacyTarget(element: Element?, isEditable: bool)

  function ClassifyLegacy(target: Element): (t: LegacyTarget)
    requires AncestryFinite(target)
    ensures t.isEditable <==> t.element != null
    ensures target.hasValueProperty || target.isContentEditable ==> t.element == target
    ensures t.element != null && t.element != target ==>
      t.element.contentEditableAttribute && t.element in AncestorsOrSelf(target)
    ensures !target.hasValueProperty && !target.isContentEditable ==> t.element == Closest(target)
    ensures t.element == null <==>
      !target.hasValueProperty && !target.isContentEditable
      && forall a :: a in AncestorsOrSelf(target) ==> !a.contentEditableAttribute
  {
    if target.hasValueProperty || target.isContentEditable then LegacyTarget(target, true)
    else
      var marked := Closest(target);
      LegacyTarget(marked, marked != null)
  }

  /**
   * The offsets kept for a value-bearing element: the reported selection, or
   * the whole value when the selection is a bare caret (or not reported, in
   * which case `selectionStart === selectionEnd` holds as `null === null`).
   */
  function CaptureSpan(value: string, selection: Option<Span>): (span: Span)
    ensures span.start == span.end ==> span == Span(0, |value|)
  {
    match selection
    case Some(s) => if s.start == s.end then Span(0, |value|) else s
    case None => Span(0, |value|)
  }

  /** `value.substring(selectionStart, selectionEnd)` after the widening. */
  function CapturedText(value: string, selection: Option<Span>): (text: string)
    ensures |text| <= |value|
  {
    var span := CaptureSpan(value, selection);
    Substring(value, span.start, span.end)
  }

  /** A caret, or no reported selection, captures the whole value. */
  lemma CaretCapturesWholeValue(value: string, selection: Option<Span>)
    requires selection.None? || selection.value.start == selection.value.end
    ensures CaptureSpan(value, selection) == Span(0, |value|)
    ensures CapturedText(value, selection) == value
  {
  }

  /** A real selection inside the value is kept as it is and captures exactly the selected characters. */
  lemma RangeCapturesSlice(value: string, start: int, end: int)
    requires 0 <= start < end <= |value|
    ensures CaptureSpan(value, Some(Span(start, end))) == Span(start, end)
    ensures CapturedText(value, Some(Span(start, end))) == value[start..end]
  {
  }

  /** The `tabindex` and `data-gpt-remove-tabindex` attributes of an element. */
  datatype FocusAttrs = FocusAttrs(tabindex: Option<string>, removeFlag: Option<string>)

  function AttrsOf(e: Element): FocusAttrs
    reads e
  {
    FocusAttrs(e.tabindex, e.removeTabindexFlag)
  }

  /**
   * Making a non-editable element focusable: an existing `tabindex` is kept and
   * flagged `'false'`; otherwise `tabindex="0"` is added and flagged `'true'`.
   */
  function MakeFocusable(a: FocusAttrs): (b: FocusAttrs)
    ensures b.tabindex.Some?
    ensures a.tabindex.Some? ==> b.tabindex == a.tabindex
    ensures a.tabindex.None? ==> b.tabindex == Some("0")
    ensures b.removeFlag == Some(if a.tabindex.Some? then "false" else "true")
  {
    if a.tabindex.Some? then FocusAttrs(a.tabindex, Some("false"))
    else FocusAttrs(Some("0"), Some("true"))
  }

  /** On the close transition both attributes go, exactly when the flag reads `'true'`. */
  function StripFocusable(a: FocusAttrs): (b: FocusAttrs)
    ensures b.removeFlag != Some("true")
    ensures b.tabindex.Some? ==> b == a
  {
    if a.removeFlag == Some("true") then FocusAttrs(None, None) else a
  }

  /**
   * Closing undoes what opening added: the `tabindex` afterwards is the one
   * before; the flag is gone when the `tabindex` was added, and is left behind
   * as `'false'` when the element already had one.
   */
  lemma StripUndoesMake(a: FocusAttrs)
    ensures StripFocusable(MakeFocusable(a)).tabindex == a.tabindex
    ensures StripFocusable(MakeFocusable(a)).removeFlag == if a.tabindex.Some? then Some("false") else None
    ensures a.tabindex.None? && a.removeFlag.None? ==> StripFocusable(MakeFocusable(a)) == a
  {
  }

  /** Making an element focusable a second time changes nothing more. */
  lemma MakeFocusableTwice(a: FocusAttrs)
    ensures MakeFocusable(MakeFocusable(a)).tabindex == MakeFocusable(a).tabindex
    ensures MakeFocusable(MakeFocusable(a)).removeFlag == Some("false")
  {
  }
}

=== FILE: completion.dfy ===
/**
 * The text that goes to the completion API and the text that comes back:
 * the prompt built by the submit handler and the cleaning applied to the
 * returned completion.
 */
module Completion {
  import opened Wrappers
  import opened JsString

  /** `textarea.trim().length > 0`. */
  predicate HasContext(textarea: string)
  {
    Trim(textarea, IsJsSpace) != []
  }

  /** Every character of `t` is whitespace. */
  ghost predicate AllSpace(t: string)
  {
    forall k :: 0 <= k < |t| ==> IsJsSpace(t[k])
  }

  /** The context counts exactly when some character of it is not whitespace. */
  lemma HasContextIffNotAllSpace(textarea: string)
    ensures HasContext(textarea) <==> !AllSpace(textarea)
  {
    TrimEmptyIffAllSpace(textarea, IsJsSpace);
  }

  /**
   * The submit handler: nothing is sent unless the form is valid and the
   * instruction is non-empty; the prompt is `input + ": " + textarea` when the
   * textarea holds something other than whitespace (sent untrimmed), else
   * `input` alone.
   */
  function BuildPrompt(input: string, textarea: string, formValid: bool): (prompt: Option<string>)
    ensures prompt.Some? <==> formValid && |input| > 0
  {
    if !formValid then None
    else if |input| > 0 then
      if HasContext(textarea) then Some(input + ": " + textarea) else Some(input)
    else None
  }

  /**
   * What a sent prompt holds: it starts with the instruction, which is followed
   * by `": "` and the whole, untrimmed context exactly when the context is not
   * all whitespace.
   */
  lemma PromptShape(input: string, textarea: string, formValid: bool)
    requires formValid && |input| > 0
    ensures var prompt := BuildPrompt(input, textarea, formValid).value;
      && |input| <= |prompt| && prompt[..|input|] == input
      && (!AllSpace(textarea) ==> prompt[|input|..] == ": " + textarea)
      && (AllSpace(textarea) ==> prompt == input)
  {
    HasContextIffNotAllSpace(textarea);
    ContextAppended(input, textarea);
  }

  /** The same shape, stated against `HasContext`, the test the handler performs. */
  lemma ContextAppended(input: string, textarea: string)
    requires |input| > 0
    ensures var prompt := BuildPrompt(input, textarea, true).value;
      && |input| <= |prompt| && prompt[..|input|] == input
      && (HasContext(textarea) ==> prompt[|input|..] == ": " + textarea)
      && (!HasContext(textarea) ==> prompt == input)
  {
  }

  /** `"Summarize"` with an empty or all-whitespace context is sent alone; an empty instruction sends nothing. */
  lemma PromptWithoutContext()
    ensures BuildPrompt("Summarize", "", true) == Some("Summarize")
    ensures BuildPrompt("Summarize", " \n\t", true) == Some("Summarize")
    ensures BuildPrompt("", "foo", true) == None
  {
    PromptShape("Summarize", "", true);
    PromptShape("Summarize", " \n\t", true);
    assert AllSpace(" \n\t");
  }

  /** `"Summarize"` with the context `foo` is sent as `"Summarize: foo"`. */
  lemma PromptWithContext()
    ensures BuildPrompt("Summarize", "foo", true) == Some("Summarize: foo")
  {
    assert !AllSpace("foo") by { assert !IsJsSpace("foo"[0]); }
    HasContextIffNotAllSpace("foo");
    assert "Summarize" + ": " + "foo" == "Summarize: foo";
  }

  /** `output.replace(/"/g, '')` followed by `trim()`. */
  function CleanOutput(text: string): (output: string)
    ensures '"' !in output
    ensures output != [] ==> !IsJsSpace(output[0]) && !IsJsSpace(output[|output| - 1])
    ensures forall c :: c in output ==> c in text
  {
    var unquoted := RemoveQuotes(text);
    TrimIsSlice(unquoted, IsJsSpace);
    forall c | c in Trim(unquoted, IsJsSpace) ensures c in unquoted {
      TrimKeepsOnly(unquoted, IsJsSpace, c);
    }
    Trim(unquoted, IsJsSpace)
  }

  /** Cleaning a cleaned completion changes nothing. */
  lemma CleanOutputIdempotent(text: string)
    ensures CleanOutput(CleanOutput(text)) == CleanOutput(text)
  {
    var once := CleanOutput(text);
    RemoveQuotesNoQuotes(once);
    TrimIdempotent(RemoveQuotes(text), IsJsSpace);
  }

  /**
   * A quote is dropped wherever it stands, not only at the ends: inserting one
   * anywhere in a completion does not change the cleaned text.
   */
  lemma CleanOutputIgnoresInnerQuote(a: string, b: string)
    ensures CleanOutput(a + "\"" + b) == CleanOutput(a + b)
  {
    assert a + "\"" + b == a + ("\"" + b);
    RemoveQuotesAppend(a, "\"" + b);
    RemoveQuotesAppend("\"", b);
    assert RemoveQuotes("\"") == [];
    assert RemoveQuotes("\"" + b) == RemoveQuotes(b);
    RemoveQuotesAppend(a, b);
  }
}

=== FILE: content_script.dfy ===
/**
 * The earlier variant of the engine, `content.js`: written as a content
 * script, whose module-level `let` variables and overlay flags are the
 * fields of `Page`. It is triggered by Ctrl+Alt+. on any element, has no
 * focusability bookkeeping, no abort, and no in-page insert for editable
 * elements that are not value-bearing.
 */
module ContentScript {
  import opened Wrappers
  import opened JsString
  import opened Dom
  import opened Capture
  import opened Completion
  import opened Replacement

  /** `[anchorNode, anchorOffset, focusNode, focusOffset]` of the document's selection. */
  datatype SelectionParameters = SelectionParameters(anchorNode: Element?, anchorOffset: nat, focusNode: Element?, focusOffset: nat)

  /** The key event that triggers a capture: `.` with both Ctrl and Alt held. */
  predicate IsTrigger(key: string, ctrlKey: bool, altKey: bool)
  {
    key == "." && ctrlKey && altKey
  }

  class Page {
    /** `activeElement`: the target, its nearest `[contenteditable]` ancestor, or null. */
    var activeElement: Element?
    var isEditable: bool
    /** `hasValue`; undefined, hence falsy, before the first trigger. */
    var hasValue: bool
    /** None while `selectionParameters` is still the initial empty array. */
    var selectionParameters: Option<SelectionParameters>
    /** `selectionText`; None while it is still null. */
    var selectionText: Option<string>
    /** `selectionStart` and `selectionEnd`; None while they are null. */
    var span: Option<Span>

    /** The search prompt is displayed (not `display: none`). */
    var promptDisplayed: bool
    /** The search prompt carries `gpt-show`. */
    var showClass: bool
    /** The 100 ms timer that adds `gpt-show` is pending. */
    var showScheduled: bool
    /** At least one `transitionend` listener registered by a close is pending. */
    var closeListener: bool
    /** The value of the overlay's textarea. */
    var textarea: string
    /** The spinner is displayed. */
    var spinnerShown: bool

    /** Identifiers of the fetches that have not settled yet. */
    var pending: set<nat>
    /** The identifier the next fetch gets. */
    var nextRequest: nat
    /** The prompts sent, in order. */
    var sent: seq<string>
    /** `alert` calls, as (status, statusText). */
    var alerts: seq<(int, string)>

    /** A value-bearing capture always leaves an element and a span behind, and identifiers are never reused. */
    ghost predicate Valid()
      reads this`hasValue, this`activeElement, this`span, this`pending, this`nextRequest
    {
      && (hasValue ==> activeElement != null && span.Some?)
      && forall id :: id in pending ==> id < nextRequest
    }

    /** The script as loaded: nothing captured, the overlay and the spinner hidden. */
    constructor Load()
      ensures Valid()
      ensures activeElement == null && !isEditable && !hasValue
      ensures selectionParameters == None && selectionText == None && span == None
      ensures !promptDisplayed && !showClass && !showScheduled && !closeListener && textarea == ""
      ensures !spinnerShown && pending == {} && nextRequest == 0 && sent == [] && alerts == []
    {
      activeElement, isEditable, hasValue := null, false, false;
      selectionParameters, selectionText, span := None, None, None;
      promptDisplayed, showClass, showScheduled, closeListener, textarea := false, false, false, false, "";
      spinnerShown, pending, nextRequest, sent, alerts := false, {}, 0, [], [];
    }

    /**
     * The window's keydown listener. Anything but the trigger is ignored;
     * the trigger prevents the default, classifies the target, captures the
     * selection and shows the prompt pre-filled with it.
     */
    method KeyDown(key: string, ctrlKey: bool, altKey: bool, target: Element, selection: DocSelection)
      returns (defaultPrevented: bool)
      requires Valid() && AncestryFinite(target)
      modifies this`activeElement, this`isEditable, this`hasValue, this`selectionParameters
      modifies this`selectionText, this`span, this`textarea, this`promptDisplayed, this`showScheduled
      modifies selection
      ensures Valid()
      ensures defaultPrevented <==> IsTrigger(key, ctrlKey, altKey)
      ensures !IsTrigger(key, ctrlKey, altKey) ==>
        && activeElement == old(activeElement) && isEditable == old(isEditable) && hasValue == old(hasValue)
        && selectionParameters == old(selectionParameters) && selectionText == old(selectionText)
        && span == old(span) && textarea == old(textarea) && promptDisplayed == old(promptDisplayed)
        && showScheduled == old(showScheduled) && unchanged(selection)
      ensures IsTrigger(key, ctrlKey, altKey) ==>
        && hasValue == target.hasValueProperty
        && activeElement == ClassifyLegacy(target).element && isEditable == ClassifyLegacy(target).isEditable
        && selectionText.Some? && textarea == selectionText.value && promptDisplayed && showScheduled
      ensures IsTrigger(key, ctrlKey, altKey) && hasValue ==>
        && span == Some(CaptureSpan(target.value, target.selection))
        && selectionText == Some(CapturedText(target.value, target.selection))
        && selectionParameters == old(selectionParameters) && unchanged(selection)
      ensures IsTrigger(key, ctrlKey, altKey) && !hasValue && isEditable ==>
        && span == old(span)
        && selectionText == Some(selection.text)
        && selectionParameters == Some(SelectionParameters(selection.anchorNode, selection.anchorOffset,
                                                           selection.focusNode, selection.focusOffset))
        && (if old(selection.IsCollapsed())
            then selection.text == activeElement.text && selection.anchorNode == activeElement
                 && selection.focusNode == activeElement
            else unchanged(selection))
      ensures IsTrigger(key, ctrlKey, altKey) && !isEditable ==>
        && selectionText == Some("") && span == old(span)
        && selectionParameters == old(selectionParameters) && unchanged(selection)
    {
      defaultPrevented := false;
      if IsTrigger(key, ctrlKey, altKey) {
        defaultPrevented := true;
        Capture(target, selection);
        ShowSearchPrompt(selectionText.value);
      }
    }

    /** Lines 41-88 of the keydown listener: classify the target and capture its selection. */
    method Capture(target: Element, selection: DocSelection)
      requires AncestryFinite(target)
      requires forall id :: id in pending ==> id < nextRequest
      modifies this`activeElement, this`isEditable, this`hasValue, this`selectionParameters
      modifies this`selectionText, this`span, selection
      ensures Valid()
      ensures hasValue == target.hasValueProperty
      ensures activeElement == ClassifyLegacy(target).element && isEditable == ClassifyLegacy(target).isEditable
      ensures hasValue ==>
        && span == Some(CaptureSpan(target.value, target.selection))
        && selectionText == Some(CapturedText(target.value, target.selection))
        && selectionParameters == old(selectionParameters) && unchanged(selection)
      ensures !hasValue && isEditable ==>
        && span == old(span)
        && selectionText == Some(selection.text)
        && selectionParameters == Some(SelectionParameters(selection.anchorNode, selection.anchorOffset,
                                                           selection.focusNode, selection.focusOffset))
        && (if old(selection.IsCollapsed())
            then selection.text == activeElement.text && selection.anchorNode == activeElement
                 && selection.focusNode == activeElement
            else unchanged(selection))
      ensures !isEditable ==>
        && selectionText == Some("") && span == old(span)
        && selectionParameters == old(selectionParameters) && unchanged(selection)
    {
      hasValue := target.hasValueProperty;
      var t := ClassifyLegacy(target);
      activeElement, isEditable := t.element, t.isEditable;
      selectionText := Some("");
      if hasValue {
        var start, end := None, None;
        match target.selection {
          case Some(s) => start, end := Some(s.start), Some(s.end);
          case None =>
        }
        var captured := if start == end then Span(0, |target.value|) else Span(start.value, end.value);
        span := Some(captured);
        selectionText := Some(Substring(target.value, captured.start, captured.end));
      } else if isEditable {
        if selection.IsCollapsed() {
          selection.SelectAllChildren(activeElement);
        }
        selectionParameters := Some(SelectionParameters(selection.anchorNode, selection.anchorOffset,
                                                         selection.focusNode, selection.focusOffset));
        selectionText := Some(selection.text);
      }
    }

    /** `showSearchPrompt(context)`: fill the textarea, display, schedule the fade-in. */
    method ShowSearchPrompt(context: string)
      modifies this`textarea, this`promptDisplayed, this`showScheduled
      ensures textarea == context && promptDisplayed && showScheduled
    {
      textarea := context;
      promptDisplayed := true;
      showScheduled := true;
    }

    /** The user edits the context field. */
    method EditContext(text: string)
      requires Valid()
      modifies this`textarea
      ensures Valid() && textarea == text
    {
      textarea := text;
    }

    /**
     * The submit handler and the start of `gptCompletion`: when the form is
     * valid and the instruction non-empty, a fetch is started under a fresh
     * identifier, the prompt is sent, and the start event shows the spinner.
     */
    method Submit(input: string, formValid: bool) returns (id: Option<nat>)
      requires Valid()
      modifies this`pending, this`nextRequest, this`sent, this`spinnerShown
      ensures Valid()
      ensures id.Some? <==> BuildPrompt(input, textarea, formValid).Some?
      ensures id.None? ==>
        pending == old(pending) && nextRequest == old(nextRequest) && sent == old(sent)
        && spinnerShown == old(spinnerShown)
      ensures id.Some? ==>
        && id.value !in old(pending) && pending == old(pending) + {id.value}
        && sent == old(sent) + [BuildPrompt(input, textarea, formValid).value] && spinnerShown
    {
      var prompt := BuildPrompt(input, textarea, formValid);
      id := None;
      if prompt.Some? {
        id := Some(nextRequest);
        pending := pending + {nextRequest};
        nextRequest := nextRequest + 1;
        sent := sent + [prompt.value];
        spinnerShown := true;
      }
    }

    /** `searchPromptClose`: fade out and wait for the transition; nothing is aborted. */
    method Close()
      requires Valid()
      modifies this`closeListener, this`showClass
      ensures Valid() && closeListener && !showClass
    {
      showClass := false;
      closeListener := true;
    }

    /**
     * A fetch settles. Both the fulfilled and the rejected path dispatch the
     * end event on the shadow root, where the spinner listens, so the spinner
     * is hidden either way. A rejection then makes `gptCompletion` reject and
     * nothing else happens; an error status is alerted; otherwise the cleaned
     * completion is delivered.
     */
    method Settle(id: nat, outcome: FetchOutcome)
      requires Valid() && id in pending
      modifies this`pending, this`spinnerShown, this`alerts, this`textarea, this`closeListener, this`showClass
      modifies activeElement
      ensures Valid()
      ensures pending == old(pending) - {id} && !spinnerShown
      ensures outcome.Rejected? ==> alerts == old(alerts) && Untouched()
      ensures outcome.Resolved? ==> Responded(outcome.response)
    {
      pending := pending - {id};
      spinnerShown := false;
      if outcome.Resolved? {
        Respond(outcome.response);
      }
    }

    /** An error status is alerted and nothing else happens; otherwise the cleaned completion is delivered. */
    twostate predicate Responded(response: Response)
      reads this, activeElement
    {
      if !response.ok then
        alerts == old(alerts) + [(response.status, response.statusText)] && Untouched()
      else
        alerts == old(alerts) && Delivered(CleanOutput(response.text))
    }

    /** The rest of `gptCompletion` once a response arrived. */
    method Respond(response: Response)
      requires Valid()
      modifies this`alerts, this`textarea, this`closeListener, this`showClass, activeElement
      ensures Valid()
      ensures Responded(response)
    {
      if !response.ok {
        alerts := alerts + [(response.status, response.statusText)];
      } else {
        Deliver(CleanOutput(response.text));
      }
    }

    /** Neither the page nor the overlay changed since the start of the call. */
    twostate predicate Untouched()
      reads this, activeElement
    {
      && activeElement == old(activeElement)
      && textarea == old(textarea) && closeListener == old(closeListener) && showClass == old(showClass)
      && (activeElement != null ==>
            activeElement.value == old(activeElement.value) && activeElement.selection == old(activeElement.selection))
      && AttributesKept()
    }

    /** The element's `tabindex` and flag are as they were at the start of the call. */
    twostate predicate AttributesKept()
      reads this, activeElement
    {
      activeElement == old(activeElement) &&
      (activeElement != null ==> AttrsOf(activeElement) == old(AttrsOf(activeElement)))
    }

    /**
     * What delivering `output` did: spliced into a value-bearing element and
     * closed, or, for any other element, put in the textarea with the page
     * and the overlay's visibility left alone.
     */
    twostate predicate Delivered(output: string)
      reads this, activeElement
    {
      && activeElement == old(activeElement)
      && AttributesKept()
      && if hasValue then
        && activeElement != null && span.Some?
        && activeElement.value == Splice(old(activeElement.value), span.value, output)
        && activeElement.selection ==
             SelectionAfterSet(old(activeElement.value), activeElement.value, old(activeElement.selection))
        && closeListener && !showClass && textarea == old(textarea)
      else
        && (activeElement != null ==>
              activeElement.value == old(activeElement.value) && activeElement.selection == old(activeElement.selection))
        && textarea == output && closeListener == old(closeListener) && showClass == old(showClass)
    }

    /** The success branch of `gptCompletion`, given the cleaned completion. */
    method Deliver(output: string)
      requires Valid()
      modifies this`textarea, this`closeListener, this`showClass, activeElement
      ensures Valid()
      ensures Delivered(output)
    {
      if hasValue {
        var e := activeElement;
        var before := e.value;
        e.value := Substring(e.value, 0, span.value.start) + output + Substring(e.value, span.value.end, |e.value|);
        e.selection := SelectionAfterSet(before, e.value, e.selection);
        Close();
      } else {
        textarea := output;
      }
    }

    /** The search prompt's transition ends: a pending close listener hides it. */
    method TransitionEnd()
      requires Valid()
      modifies this`promptDisplayed, this`closeListener
      ensures Valid() && !closeListener
      ensures promptDisplayed == (old(promptDisplayed) && !old(closeListener))
    {
      if closeListener {
        promptDisplayed := false;
        closeListener := false;
      }
    }

    /** The 100 ms timer after showing: the prompt fades in. */
    method ShowTimeout()
      requires Valid()
      modifies this`showClass, this`showScheduled
      ensures Valid() && !showScheduled
      ensures showClass == (old(showClass) || old(showScheduled))
    {
      if showScheduled {
        showClass := true;
        showScheduled := false;
      }
    }

    /** A key pressed inside the shadow root: Escape closes. */
    method ShadowKeyDown(key: string)
      requires Valid()
      modifies this`closeListener, this`showClass
      ensures Valid()
      ensures key == "Escape" ==> closeListener && !showClass
      ensures key != "Escape" ==> closeListener == old(closeListener) && showClass == old(showClass)
    {
      if key == "Escape" {
        Close();
      }
    }

    /** A click inside the shadow root: only one on the search prompt's backdrop closes. */
    method ShadowClick(onBackdrop: bool)
      requires Valid()
      modifies this`closeListener, this`showClass
      ensures Valid()
      ensures onBackdrop ==> closeListener && !showClass
      ensures !onBackdrop ==> closeListener == old(closeListener) && showClass == old(showClass)
    {
      if onBackdrop {
        Close();
      }
    }
  }
}

=== FILE: dom.dfy ===
/**
 * The part of the page's DOM the engine touches, as objects.
 *
 * The links an element has to other elements — its parent and the active
 * element inside its shadow root or its embedded document — are fixed while
 * one trigger is handled, so they are constants; `depth` and `height` are
 * ghost measures that bound how far those links can be followed. What the
 * engine changes in place (`value`, the `tabindex` attribute and the
 * `data-gpt-remove-tabindex` attribute) are variables.
 */
module Dom {
  import opened Wrappers

  /** `selectionStart` / `selectionEnd` of a value-bearing element. */
  datatype Span = Span(start: int, end: int)

  class Element {
    /** Measure for the nested-active-element walk. */
    ghost const depth: nat
    /** Measure for the walk up the parent chain. */
    ghost const height: nat

    /** `parentElement`, null at the root. */
    const parent: Element?
    /** `shadowRoot.activeElement`: null when there is no shadow root or nothing in it is active. */
    const shadowActive: Element?
    /** `contentDocument.activeElement`: null when there is no embedded document or nothing in it is active. */
    const documentActive: Element?

    /** `typeof element.value !== "undefined"` (inputs, textareas, selects, ...). */
    const hasValueProperty: bool
    /** The browser's `isContentEditable`. */
    const isContentEditable: bool
    /** Whether the element matches the selector `[contenteditable]`. */
    const contentEditableAttribute: bool
    /** What a selection of all the element's children serialises to. */
    const text: string
    /** How many child nodes the element has. */
    const childCount: nat

    /** `value`, meaningful when `hasValueProperty`. */
    var value: string
    /** `(selectionStart, selectionEnd)`; None where the browser reports null. */
    var selection: Option<Span>
    /** The `tabindex` attribute. */
    var tabindex: Option<string>
    /** The `data-gpt-remove-tabindex` attribute (`dataset.gptRemoveTabindex`). */
    var removeTabindexFlag: Option<string>

    constructor (parent: Element?, shadowActive: Element?, documentActive: Element?,
                 hasValueProperty: bool, isContentEditable: bool, contentEditableAttribute: bool,
                 text: string, childCount: nat, value: string, selection: Option<Span>,
                 tabindex: Option<string>, ghost depth: nat, ghost height: nat)
      ensures this.parent == parent && this.shadowActive == shadowActive && this.documentActive == documentActive
      ensures this.hasValueProperty == hasValueProperty && this.isContentEditable == isContentEditable
      ensures this.contentEditableAttribute == contentEditableAttribute
      ensures this.text == text && this.childCount == childCount
      ensures this.value == value && this.selection == selection
      ensures this.tabindex == tabindex && this.removeTabindexFlag == None
      ensures this.depth == depth && this.height == height
    {
      this.parent, this.shadowActive, this.documentActive := parent, shadowActive, documentActive;
      this.hasValueProperty, this.isContentEditable := hasValueProperty, isContentEditable;
      this.contentEditableAttribute := contentEditableAttribute;
      this.text, this.childCount := text, childCount;
      this.value, this.selection := value, selection;
      this.tabindex, this.removeTabindexFlag := tabindex, None;
      this.depth, this.height := depth, height;
    }

    /** The element has no shadow root or embedded document with an active element of its own. */
    predicate IsInnermost()
    {
      shadowActive == null && documentActive == null
    }
  }

  /** Every nested active element below `e` is strictly deeper, so the walk ends. */
  ghost predicate NestingFinite(e: Element)
    decreases e.depth
  {
    && (e.shadowActive != null ==> e.shadowActive.depth < e.depth && NestingFinite(e.shadowActive))
    && (e.documentActive != null ==> e.documentActive.depth < e.depth && NestingFinite(e.documentActive))
  }

  /** The parent chain above `e` is finite. */
  ghost predicate AncestryFinite(e: Element)
    decreases e.height
  {
    e.parent != null ==> e.parent.height < e.height && AncestryFinite(e.parent)
  }

  /** Every element reachable from `e` through nested active elements, `e` included. */
  ghost function Nested(e: Element): set<Element>
    requires NestingFinite(e)
    decreases e.depth
  {
    {e}
    + (if e.shadowActive != null then Nested(e.shadowActive) else {})
    + (if e.documentActive != null then Nested(e.documentActive) else {})
  }

  /**
   * `getActiveElement(element)`: descend into the shadow root's active element
   * first, otherwise into the embedded document's, until neither exists.
   */
  function GetActiveElement(e: Element): (r: Element)
    requires NestingFinite(e)
    ensures r.IsInnermost()
    ensures r in Nested(e)
    ensures r.depth <= e.depth
    decreases e.depth
  {
    if e.shadowActive != null then GetActiveElement(e.shadowActive)
    else if e.documentActive != null then GetActiveElement(e.documentActive)
    else e
  }

  /** An element with no nested active element resolves to itself, so resolving twice is resolving once. */
  lemma GetActiveElementIdempotent(e: Element)
    requires NestingFinite(e)
    ensures GetActiveElement(GetActiveElement(e)) == GetActiveElement(e)
  {
  }

  /**
   * The shadow root wins: whenever `e` has an active element in its shadow
   * root, the result lies inside that shadow tree, whatever its embedded
   * document holds.
   */
  lemma {:induction false} ShadowRootFirst(e: Element)
    requires NestingFinite(e)
    requires e.shadowActive != null
    ensures GetActiveElement(e) in Nested(e.shadowActive)
  {
  }

  /** The chain `e, parent, grandparent, ...` up to the root. */
  ghost function AncestorsOrSelf(e: Element): (chain: seq<Element>)
    requires AncestryFinite(e)
    ensures |chain| > 0 && chain[0] == e
    decreases e.height
  {
    [e] + (if e.parent != null then AncestorsOrSelf(e.parent) else [])
  }

  /** `e.closest('[contenteditable]')`: the nearest of `e` and its ancestors with that attribute, or null. */
  function Closest(e: Element): (r: Element?)
    requires AncestryFinite(e)
    ensures r == null <==> forall a :: a in AncestorsOrSelf(e) ==> !a.contentEditableAttribute
    ensures r != null ==> r.contentEditableAttribute && r in AncestorsOrSelf(e)
    decreases e.height
  {
    if e.contentEditableAttribute then e
    else if e.parent == null then null
    else Closest(e.parent)
  }

  /** `closest` stops at the first marked element on the chain, not at any later one. */
  lemma {:induction false} ClosestIsFirstMarked(e: Element, j: nat)
    requires AncestryFinite(e)
    requires j < |AncestorsOrSelf(e)| && AncestorsOrSelf(e)[j].contentEditableAttribute
    requires forall i :: 0 <= i < j ==> !AncestorsOrSelf(e)[i].contentEditableAttribute
    ensures Closest(e) == AncestorsOrSelf(e)[j]
  {
    if j > 0 {
      assert !e.contentEditableAttribute;
      assert e.parent != null;
      var chain := AncestorsOrSelf(e.parent);
      assert AncestorsOrSelf(e) == [e] + chain;
      forall i | 0 <= i < j - 1
        ensures !chain[i].contentEditableAttribute
      {
        assert chain[i] == AncestorsOrSelf(e)[i + 1];
      }
      ClosestIsFirstMarked(e.parent, j - 1);
    }
  }

  /** The owner document's `Selection` object. */
  class DocSelection {
    var anchorNode: Element?
    var anchorOffset: nat
    var focusNode: Element?
    var focusOffset: nat
    /** `selection.toString()`. */
    var text: string

    constructor (anchorNode: Element?, anchorOffset: nat, focusNode: Element?, focusOffset: nat, text: string)
      ensures this.anchorNode == anchorNode && this.anchorOffset == anchorOffset
      ensures this.focusNode == focusNode && this.focusOffset == focusOffset && this.text == text
    {
      this.anchorNode, this.anchorOffset := anchorNode, anchorOffset;
      this.focusNode, this.focusOffset := focusNode, focusOffset;
      this.text := text;
    }

    /** `selection.isCollapsed`: anchor and focus are the same point. */
    predicate IsCollapsed()
      reads this
    {
      anchorNode == focusNode && anchorOffset == focusOffset
    }

    /** `selection.selectAllChildren(e)`: the selection now spans all of `e`'s children. */
    method SelectAllChildren(e: Element)
      modifies this
      ensures anchorNode == e && anchorOffset == 0
      ensures focusNode == e && focusOffset == e.childCount
      ensures text == e.text
    {
      anchorNode, anchorOffset := e, 0;
      focusNode, focusOffset := e, e.childCount;
      text := e.text;
    }
  }

  /** An `AbortController`, reduced to whether `abort()` has been called. */
  class AbortController {
    var aborted: bool

    constructor ()
      ensures !aborted
    {
      aborted := false;
    }

    method Abort()
      modifies this
      ensures aborted
    {
      aborted := true;
    }
  }

  /** A settled `fetch`: a response (`ok`, `status`, `statusText`, `choices[0].text`) or a rejection. */
  datatype Response = Response(ok: bool, status: int, statusText: string, text: string)

  datatype FetchOutcome = Resolved(response: Response) | Rejected
}

=== FILE: js_string.dfy ===
/**
 * The three JavaScript string built-ins the engine relies on:
 * `String.prototype.substring` (with its clamping and swapping of indices),
 * `String.prototype.trim`, and `replace(/"/g, '')`.
 * Strings are sequences of characters; trimming is stated for any
 * whitespace predicate, and `IsJsSpace` is the one ECMAScript uses.
 */
module JsString {

  /** ECMAScript WhiteSpace and LineTerminator code points: what `trim` strips. */
  predicate IsJsSpace(c: char)
  {
    c == '\t' || c == '\n' || c == '\U{000B}' || c == '\U{000C}' || c == '\r' || c == ' '
    || c == '\U{00A0}' || c == '\U{1680}' || ('\U{2000}' <= c <= '\U{200A}')
    || c == '\U{2028}' || c == '\U{2029}' || c == '\U{202F}' || c == '\U{205F}'
    || c == '\U{3000}' || c == '\U{FEFF}'
  }

  /** `ToIntegerOrInfinity` followed by the clamp into `[0, len]` that `substring` applies. */
  function Clamp(i: int, len: nat): (r: nat)
    ensures r <= len
    ensures 0 <= i <= len ==> r == i
    ensures i < 0 ==> r == 0
    ensures i > len ==> r == len
  {
    if i < 0 then 0 else if i > len then len else i
  }

  /** `s.substring(start, end)`: both indices clamped, then swapped if out of order. */
  function Substring(s: string, start: int, end: int): (r: string)
    ensures 0 <= start <= end <= |s| ==> r == s[start..end]
    ensures |r| <= |s|
  {
    var a, b := Clamp(start, |s|), Clamp(end, |s|);
    if a <= b then s[a..b] else s[b..a]
  }

  /** `substring` does not care in which order its two indices come. */
  lemma SubstringSymmetric(s: string, start: int, end: int)
    ensures Substring(s, start, end) == Substring(s, end, start)
  {
  }

  /** Drops the leading characters for which `isSpace` holds. */
  function TrimStart(s: string, isSpace: char -> bool): string
    decreases |s|
  {
    if s != [] && isSpace(s[0]) then TrimStart(s[1..], isSpace) else s
  }

  /**
   * What `TrimStart` keeps is a suffix of `s`, everything it dropped is
   * whitespace, and what it keeps does not start with whitespace.
   */
  lemma {:induction false} TrimStartSpec(s: string, isSpace: char -> bool)
    ensures var r := TrimStart(s, isSpace);
      && |r| <= |s| && r == s[|s| - |r|..]
      && (forall k :: 0 <= k < |s| - |r| ==> isSpace(s[k]))
      && (r != [] ==> !isSpace(r[0]))
    decreases |s|
  {
    if s != [] && isSpace(s[0]) {
      TrimStartSpec(s[1..], isSpace);
      var r := TrimStart(s, isSpace);
      forall k | 0 <= k < |s| - |r| ensures isSpace(s[k]) {
        if k > 0 {
          assert s[k] == s[1..][k - 1];
        }
      }
    }
  }

  /** Drops the trailing characters for which `isSpace` holds. */
  function TrimEnd(s: string, isSpace: char -> bool): string
    decreases |s|
  {
    if s != [] && isSpace(s[|s| - 1]) then TrimEnd(s[..|s| - 1], isSpace) else s
  }

  /**
   * What `TrimEnd` keeps is a prefix of `s`, everything it dropped is
   * whitespace, and what it keeps does not end with whitespace.
   */
  lemma {:induction false} TrimEndSpec(s: string, isSpace: char -> bool)
    ensures var r := TrimEnd(s, isSpace);
      && |r| <= |s| && r == s[..|r|]
      && (forall k :: |r| <= k < |s| ==> isSpace(s[k]))
      && (r != [] ==> !isSpace(r[|r| - 1]))
    decreases |s|
  {
    if s != [] && isSpace(s[|s| - 1]) {
      TrimEndSpec(s[..|s| - 1], isSpace);
    }
  }

  /** `s.trim()` for the whitespace predicate `isSpace`. */
  function Trim(s: string, isSpace: char -> bool): string
  {
    TrimEnd(TrimStart(s, isSpace), isSpace)
  }

  /** Where the slice kept by `trim` starts: the number of leading whitespace characters. */
  function TrimOffset(s: string, isSpace: char -> bool): (i: nat)
    ensures i <= |s|
  {
    TrimStartSpec(s, isSpace);
    |s| - |TrimStart(s, isSpace)|
  }

  /**
   * What `trim` keeps: the slice of `s` that starts at `TrimOffset`, and
   * neither starts nor ends with whitespace.
   */
  lemma TrimIsSlice(s: string, isSpace: char -> bool)
    ensures TrimOffset(s, isSpace) + |Trim(s, isSpace)| <= |s|
    ensures Trim(s, isSpace) == s[TrimOffset(s, isSpace)..TrimOffset(s, isSpace) + |Trim(s, isSpace)|]
    ensures Trim(s, isSpace) != [] ==> !isSpace(Trim(s, isSpace)[0]) && !isSpace(Trim(s, isSpace)[|Trim(s, isSpace)| - 1])
  {
    var t := TrimStart(s, isSpace);
    var r := TrimEnd(t, isSpace);
    TrimStartSpec(s, isSpace);
    TrimEndSpec(t, isSpace);
    var i := |s| - |t|;
    assert t == s[i..];
    assert r == t[..|r|];
    assert r != [] ==> r[0] == t[0];
  }

  /** What `trim` cuts off, on either side, is whitespace. */
  lemma TrimCutsOnlySpace(s: string, isSpace: char -> bool, k: int)
    requires 0 <= k < |s|
    requires k < TrimOffset(s, isSpace) || TrimOffset(s, isSpace) + |Trim(s, isSpace)| <= k
    ensures isSpace(s[k])
  {
    var t := TrimStart(s, isSpace);
    TrimStartSpec(s, isSpace);
    TrimEndSpec(t, isSpace);
    var i := |s| - |t|;
    if k >= i {
      assert s[k] == t[k - i];
    }
  }

  /** Every character of a trimmed string occurs in the original. */
  lemma TrimKeepsOnly(s: string, isSpace: char -> bool, c: char)
    requires c in Trim(s, isSpace)
    ensures c in s
  {
    TrimIsSlice(s, isSpace);
    var r := Trim(s, isSpace);
    var i := TrimOffset(s, isSpace);
    var k :| 0 <= k < |r| && r[k] == c;
    assert s[i + k] == c;
  }

  /** Trimming twice is trimming once. */
  lemma TrimIdempotent(s: string, isSpace: char -> bool)
    ensures Trim(Trim(s, isSpace), isSpace) == Trim(s, isSpace)
  {
    var r := Trim(s, isSpace);
    TrimIsSlice(s, isSpace);
    assert TrimStart(r, isSpace) == r;
    assert TrimEnd(r, isSpace) == r;
  }

  /**
   * A string trims to the empty string exactly when every character is
   * whitespace (`text.trim().length > 0` asks whether some character is not).
   */
  lemma TrimEmptyIffAllSpace(s: string, isSpace: char -> bool)
    ensures Trim(s, isSpace) == [] <==> forall k :: 0 <= k < |s| ==> isSpace(s[k])
  {
    TrimIsSlice(s, isSpace);
    var r := Trim(s, isSpace);
    var i := TrimOffset(s, isSpace);
    if r != [] {
      assert s[i] == r[0];
    } else {
      forall k | 0 <= k < |s| ensures isSpace(s[k]) {
        TrimCutsOnlySpace(s, isSpace, k);
      }
    }
  }

  /** `s.replace(/"/g, '')`: every double quote removed, wherever it stands. */
  function RemoveQuotes(s: string): (r: string)
    ensures '"' !in r
    ensures |r| <= |s|
    ensures forall c :: c in r ==> c in s
  {
    if s == [] then []
    else if s[0] == '"' then RemoveQuotes(s[1..])
    else [s[0]] + RemoveQuotes(s[1..])
  }

  /** Removing quotes changes nothing when there are none. */
  lemma {:induction false} RemoveQuotesNoQuotes(s: string)
    requires '"' !in s
    ensures RemoveQuotes(s) == s
  {
    if s != [] {
      assert '"' !in s[1..] by { assert forall k :: 0 <= k < |s| - 1 ==> s[1..][k] == s[k + 1]; }
      RemoveQuotesNoQuotes(s[1..]);
    }
  }

  /** Removing quotes keeps every other character, as many times as it occurred. */
  lemma {:induction false} RemoveQuotesKeepsOthers(s: string, c: char)
    requires c != '"'
    ensures multiset(RemoveQuotes(s))[c] == multiset(s)[c]
  {
    if s != [] {
      assert s == [s[0]] + s[1..];
      RemoveQuotesKeepsOthers(s[1..], c);
    }
  }

  /** Quote removal works piecewise: it distributes over concatenation. */
  lemma {:induction false} RemoveQuotesAppend(a: string, b: string)
    ensures RemoveQuotes(a + b) == RemoveQuotes(a) + RemoveQuotes(b)
  {
    if a == [] {
      assert a + b == b;
    } else {
      assert (a + b)[0] == a[0];
      assert (a + b)[1..] == a[1..] + b;
      RemoveQuotesAppend(a[1..], b);
      var head := if a[0] == '"' then [] else [a[0]];
      calc {
        RemoveQuotes(a + b);
        head + RemoveQuotes(a[1..] + b);
        head + (RemoveQuotes(a[1..]) + RemoveQuotes(b));
        (head + RemoveQuotes(a[1..])) + RemoveQuotes(b);
        RemoveQuotes(a) + RemoveQuotes(b);
      }
    }
  }
}

=== FILE: prompt_overlay.dfy ===
/**
 * The injected script `src/gptprompt.js`. Each injection runs one closure:
 * it mounts a fresh overlay, resolves and classifies the focused element,
 * captures the selection, and from then on reacts to events (submit, the
 * settling of a fetch, Escape, clicks, timers and the overlay's transition).
 * The closure's `let` variables and the overlay's display flags are the
 * fields of `Session`; each event handler is a method.
 */
module PromptOverlay {
  import opened Wrappers
  import opened JsString
  import opened Dom
  import opened Capture
  import opened Completion
  import opened Replacement

  /** Where the overlay is in its life: shown after a delay, hidden after its transition. */
  datatype Phase = Closed | Opening | Open | Closing

  class Session {
    // The closure's state.
    /** `currentElement`; null until the capture ran. */
    var currentElement: Element?
    var isEditable: bool
    var hasValue: bool
    var selectionText: Option<string>
    /** `selectionStart` and `selectionEnd`; None while they are null. */
    var span: Option<Span>
    /** `controller`: the AbortController of the latest request, if any. */
    var controller: AbortController?

    // The overlay.
    /** `gpt-shadow-root-container` is in the page. */
    var attached: bool
    /** The iframe and the search prompt are displayed (not `display: none`). */
    var promptDisplayed: bool
    /** The search prompt carries `gpt-show` (it is faded in). */
    var showClass: bool
    /** The 100 ms timer that adds `gpt-show` is pending. */
    var showScheduled: bool
    /** The `transitionend` listener registered by a close is pending. */
    var closeListener: bool
    /** The value of the overlay's textarea. */
    var textarea: string
    var copyButtonShown: bool
    /** The 1000 ms timer that reveals the copy button is pending. */
    var copyButtonScheduled: bool
    /** The `gptFetchStart` / `gptFetchEnd` listeners on the iframe document are registered. */
    var spinnerListening: bool
    var spinnerShown: bool

    // What the session sent to, and received from, the outside.
    /** Controllers of the fetches that have not settled yet. */
    var pending: set<AbortController>
    /** The prompts sent, in order. */
    var sent: seq<string>
    /** `alert` calls, as (status, statusText). */
    var alerts: seq<(int, string)>

    /** The element's focus attributes before the capture made it focusable. */
    ghost var attrsBefore: FocusAttrs
    /** The capture made `currentElement` focusable and the close has not undone it yet. */
    ghost var madeFocusable: bool

    ghost predicate Valid()
      reads this`hasValue, this`span, this`currentElement, this`madeFocusable, this`attrsBefore, currentElement
    {
      && (hasValue ==> currentElement != null && span.Some?)
      && (madeFocusable ==> currentElement != null && AttrsOf(currentElement) == MakeFocusable(attrsBefore))
    }

    function Phase(): Phase
      reads this
    {
      if !attached || !promptDisplayed then Closed
      else if closeListener then Closing
      else if showClass then Open
      else Opening
    }

    /** Lines up to the capture: the closure's variables and a fresh, hidden overlay in the page. */
    constructor Mount()
      ensures Valid() && Phase() == Closed
      ensures currentElement == null && controller == null && selectionText == None && span == None
      ensures !isEditable && !hasValue
      ensures attached && !promptDisplayed && !showClass && !showScheduled && !closeListener
      ensures !copyButtonShown && !copyButtonScheduled && !spinnerListening && !spinnerShown
      ensures textarea == "" && pending == {} && sent == [] && alerts == []
      ensures !madeFocusable
    {
      currentElement, controller := null, null;
      isEditable, hasValue := false, false;
      selectionText, span := None, None;
      attached, promptDisplayed, showClass, showScheduled, closeListener := true, false, false, false, false;
      textarea := "";
      copyButtonShown, copyButtonScheduled, spinnerListening, spinnerShown := false, false, false, false;
      pending, sent, alerts := {}, [], [];
      attrsBefore, madeFocusable := FocusAttrs(None, None), false;
    }

    /**
     * Classify the resolved element, make a non-editable one focusable,
     * capture the selection, and show the overlay pre-filled with it.
     * `threw` is the `TypeError` of the reassigned `const`, after which nothing
     * else in the script runs.
     */
    method CaptureSelection(e: Element, selection: DocSelection) returns (threw: bool)
      requires AncestryFinite(e)
      modifies this`currentElement, this`hasValue, this`madeFocusable, this`isEditable, this`attrsBefore
      modifies this`span, this`selectionText, this`copyButtonShown, this`textarea, this`promptDisplayed
      modifies this`showScheduled, this`spinnerListening, e`tabindex, e`removeTabindexFlag, selection
      ensures Valid()
      ensures currentElement == e && hasValue == e.hasValueProperty
      ensures threw <==> Classify(e).ConstReassigned?
      ensures AttrsOf(e) == if Classify(e).NotEditable? then MakeFocusable(old(AttrsOf(e))) else old(AttrsOf(e))
      ensures madeFocusable == Classify(e).NotEditable? && (madeFocusable ==> attrsBefore == old(AttrsOf(e)))
      ensures threw ==>
        && isEditable == old(isEditable) && selectionText == old(selectionText) && span == old(span)
        && promptDisplayed == old(promptDisplayed) && showScheduled == old(showScheduled)
        && copyButtonShown == old(copyButtonShown) && spinnerListening == old(spinnerListening)
        && textarea == old(textarea) && unchanged(selection)
      ensures !threw ==> isEditable == Classify(e).IsEditable()
      ensures !threw && hasValue ==>
        && span == Some(CaptureSpan(e.value, e.selection))
        && selectionText == Some(CapturedText(e.value, e.selection))
        && unchanged(selection)
      ensures !threw && !hasValue ==>
        && span == old(span)
        && selectionText == Some(selection.text)
        && (if isEditable && old(selection.IsCollapsed())
            then selection.text == e.text && selection.anchorNode == e
            else unchanged(selection))
      ensures !threw ==>
        && textarea == selectionText.value && promptDisplayed && showScheduled && !copyButtonShown
        && spinnerListening
    {
      currentElement := e;
      hasValue := e.hasValueProperty;
      madeFocusable := false;
      var kind := Classify(e);
      if kind.ConstReassigned? {
        threw := true;
        return;
      }
      threw := false;
      CaptureAndShow(e, kind, selection);
    }

    /** The rest of the capture for an element whose classification did not throw. */
    method CaptureAndShow(e: Element, kind: Kind, selection: DocSelection)
      requires !kind.ConstReassigned? && hasValue == e.hasValueProperty
      modifies this`madeFocusable, this`isEditable, this`attrsBefore
      modifies this`span, this`selectionText, this`copyButtonShown, this`textarea, this`promptDisplayed
      modifies this`showScheduled, this`spinnerListening, e`tabindex, e`removeTabindexFlag, selection
      ensures isEditable == kind.IsEditable()
      ensures madeFocusable == kind.NotEditable? && (madeFocusable ==> attrsBefore == old(AttrsOf(e)))
      ensures AttrsOf(e) == if kind.NotEditable? then MakeFocusable(old(AttrsOf(e))) else old(AttrsOf(e))
      ensures hasValue ==>
        && span == Some(CaptureSpan(e.value, e.selection))
        && selectionText == Some(CapturedText(e.value, e.selection))
        && unchanged(selection)
      ensures !hasValue ==>
        && span == old(span)
        && selectionText == Some(selection.text)
        && (if isEditable && old(selection.IsCollapsed())
            then selection.text == e.text && selection.anchorNode == e
            else unchanged(selection))
      ensures && selectionText.Some? && textarea == selectionText.value
              && promptDisplayed && showScheduled && !copyButtonShown && spinnerListening
    {
      isEditable := kind.IsEditable();
      madeFocusable := false;
      if kind.NotEditable? {
        MakeCurrentFocusable(e);
      }
      if hasValue {
        CaptureValue(e);
      } else {
        CaptureDocument(e, selection);
      }
      ShowSearchPrompt(selectionText.value);
      spinnerListening := true;
    }

    /** `tabindex` kept and flagged `'false'`, or added as `"0"` and flagged `'true'`. */
    method MakeCurrentFocusable(e: Element)
      modifies e`tabindex, e`removeTabindexFlag, this`attrsBefore, this`madeFocusable
      ensures madeFocusable && attrsBefore == old(AttrsOf(e)) && AttrsOf(e) == MakeFocusable(attrsBefore)
    {
      attrsBefore := AttrsOf(e);
      if e.tabindex.Some? {
        e.removeTabindexFlag := Some("false");
      } else {
        e.tabindex := Some("0");
        e.removeTabindexFlag := Some("true");
      }
      madeFocusable := true;
    }

    /** Read `selectionStart` and `selectionEnd` and widen a caret to the whole value. */
    method CaptureValue(e: Element)
      modifies this`span, this`selectionText
      ensures span == Some(CaptureSpan(e.value, e.selection))
      ensures selectionText == Some(CapturedText(e.value, e.selection))
    {
      var start, end := None, None;
      match e.selection {
        case Some(s) => start, end := Some(s.start), Some(s.end);
        case None =>
      }
      var captured := if start == end then Span(0, |e.value|) else Span(start.value, end.value);
      span := Some(captured);
      selectionText := Some(Substring(e.value, captured.start, captured.end));
    }

    /** Take the document's selection, first expanding a collapsed one to the whole editable element. */
    method CaptureDocument(e: Element, selection: DocSelection)
      modifies this`selectionText, selection
      ensures selectionText == Some(selection.text)
      ensures if isEditable && old(selection.IsCollapsed())
              then selection.text == e.text && selection.anchorNode == e
              else unchanged(selection)
    {
      if isEditable && selection.IsCollapsed() {
        selection.SelectAllChildren(e);
      }
      selectionText := Some(selection.text);
    }

    /** `showSearchPrompt(context)`: hide the copy button, fill the textarea, display, schedule the fade-in. */
    method ShowSearchPrompt(context: string)
      modifies this`copyButtonShown, this`textarea, this`promptDisplayed, this`showScheduled
      ensures textarea == context && promptDisplayed && showScheduled && !copyButtonShown
    {
      copyButtonShown := false;
      textarea := context;
      promptDisplayed := true;
      showScheduled := true;
    }

    /** The user edits the context field. */
    method EditContext(text: string)
      requires Valid()
      modifies this`textarea
      ensures Valid() && textarea == text
    {
      textarea := text;
    }

    /**
     * The submit handler and the start of `gptCompletion`: when the form is
     * valid and the instruction non-empty, a new controller takes the slot
     * (the previous one is not aborted), the prompt is sent, and the start
     * event shows the spinner.
     */
    method Submit(input: string, formValid: bool)
      requires Valid()
      modifies this`controller, this`pending, this`sent, this`spinnerShown
      ensures Valid()
      ensures var prompt := BuildPrompt(input, textarea, formValid);
        if prompt.None? then
          && controller == old(controller) && pending == old(pending) && sent == old(sent)
          && spinnerShown == old(spinnerShown)
        else
          && controller != null && fresh(controller) && !controller.aborted
          && pending == old(pending) + {controller}
          && sent == old(sent) + [prompt.value]
          && spinnerShown == (old(spinnerShown) || spinnerListening)
    {
      var prompt := BuildPrompt(input, textarea, formValid);
      if prompt.Some? {
        controller := new AbortController();
        pending := pending + {controller};
        sent := sent + [prompt.value];
        if spinnerListening {
          spinnerShown := true;
        }
      }
    }

    /**
     * `searchPromptClose`: abort the controller in the slot, if any, wait for
     * the transition, and fade out.
     */
    method Close()
      requires Valid()
      modifies this`closeListener, this`showClass, controller
      ensures Valid()
      ensures closeListener && !showClass
      ensures controller != null ==> controller.aborted
    {
      if controller != null {
        controller.Abort();
      }
      closeListener := true;
      showClass := false;
    }

    /**
     * A fetch settles. A rejection (a network failure, or the abort of its
     * controller) dispatches the end event on the shadow root, where nobody
     * listens, so the spinner stays as it is and nothing else happens; a
     * response is handled by `Respond`.
     */
    method Settle(c: AbortController, outcome: FetchOutcome, insertTextSucceeds: bool)
      requires Valid() && c in pending
      modifies this`pending, this`spinnerShown, this`alerts, this`textarea, this`copyButtonScheduled
      modifies this`closeListener, this`showClass, currentElement, controller
      ensures Valid()
      ensures pending == old(pending) - {c}
      ensures old(c.aborted) || outcome.Rejected? ==>
        spinnerShown == old(spinnerShown) && alerts == old(alerts) && Untouched()
      ensures !old(c.aborted) && outcome.Resolved? ==> Responded(outcome.response, insertTextSucceeds)
    {
      pending := pending - {c};
      if !c.aborted && outcome.Resolved? {
        Respond(outcome.response, insertTextSucceeds);
      }
    }

    /**
     * A response arrived: the spinner is hidden (when its listener is
     * registered); an error status is alerted and nothing else happens;
     * otherwise the cleaned completion is delivered.
     */
    twostate predicate Responded(response: Response, insertTextSucceeds: bool)
      reads this, currentElement, controller
    {
      && spinnerShown == (old(spinnerShown) && !spinnerListening)
      && if !response.ok then
           alerts == old(alerts) + [(response.status, response.statusText)] && Untouched()
         else
           alerts == old(alerts) && Delivered(CleanOutput(response.text), insertTextSucceeds)
    }

    /** The `then` branch of `gptCompletion`, for a response that arrived. */
    method Respond(response: Response, insertTextSucceeds: bool)
      requires Valid()
      modifies this`spinnerShown, this`alerts, this`textarea, this`copyButtonScheduled
      modifies this`closeListener, this`showClass, currentElement, controller
      ensures Valid()
      ensures Responded(response, insertTextSucceeds)
    {
      if spinnerListening {
        spinnerShown := false;
      }
      if !response.ok {
        alerts := alerts + [(response.status, response.statusText)];
      } else {
        Deliver(CleanOutput(response.text), insertTextSucceeds);
      }
    }

    /** Neither the page nor the overlay changed since the start of the call. */
    twostate predicate Untouched()
      reads this, currentElement, controller
    {
      && currentElement == old(currentElement) && controller == old(controller)
      && textarea == old(textarea) && closeListener == old(closeListener) && showClass == old(showClass)
      && copyButtonScheduled == old(copyButtonScheduled)
      && (currentElement != null ==>
            currentElement.value == old(currentElement.value)
            && currentElement.selection == old(currentElement.selection))
      && AttributesKept()
      && (controller != null ==> controller.aborted == old(controller.aborted))
    }

    /** The element's `tabindex` and flag are as they were at the start of the call. */
    twostate predicate AttributesKept()
      reads this, currentElement
    {
      currentElement == old(currentElement) &&
      (currentElement != null ==> AttrsOf(currentElement) == old(AttrsOf(currentElement)))
    }

    /**
     * What delivering `output` did: spliced into a value-bearing element and
     * closed; inserted into an editable one and closed; or, when that fails or
     * the element is not editable, put in the textarea with the copy button to follow.
     */
    twostate predicate Delivered(output: string, insertTextSucceeds: bool)
      reads this, currentElement, controller
    {
      && currentElement == old(currentElement) && controller == old(controller)
      && AttributesKept()
      && if hasValue then
        && currentElement != null && span.Some?
        && currentElement.value == Splice(old(currentElement.value), span.value, output)
        && currentElement.selection ==
             SelectionAfterSet(old(currentElement.value), currentElement.value, old(currentElement.selection))
        && closeListener && !showClass && (controller != null ==> controller.aborted)
        && textarea == old(textarea) && copyButtonScheduled == old(copyButtonScheduled)
      else if isEditable && insertTextSucceeds then
        && (currentElement != null ==>
              currentElement.value == old(currentElement.value)
              && currentElement.selection == old(currentElement.selection))
        && closeListener && !showClass && (controller != null ==> controller.aborted)
        && textarea == old(textarea) && copyButtonScheduled == old(copyButtonScheduled)
      else
        && (currentElement != null ==>
              currentElement.value == old(currentElement.value)
              && currentElement.selection == old(currentElement.selection))
        && textarea == output && copyButtonScheduled
        && closeListener == old(closeListener) && showClass == old(showClass)
        && (controller != null ==> controller.aborted == old(controller.aborted))
    }

    /** The success branch of `gptCompletion`, given the cleaned completion. */
    method Deliver(output: string, insertTextSucceeds: bool)
      requires Valid()
      modifies this`textarea, this`copyButtonScheduled, this`closeListener, this`showClass
      modifies currentElement, controller
      ensures Valid()
      ensures Delivered(output, insertTextSucceeds)
    {
      if hasValue {
        var e := currentElement;
        var before := e.value;
        e.value := Substring(e.value, 0, span.value.start) + output + Substring(e.value, span.value.end, |e.value|);
        e.selection := SelectionAfterSet(before, e.value, e.selection);
        Close();
      } else if isEditable && insertTextSucceeds {
        Close();
      } else {
        textarea := output;
        copyButtonScheduled := true;
      }
    }

    /**
     * The search prompt's transition ends. The listener a close registered
     * hides the overlay, strips the focusability the capture added (when the
     * element's flag reads `'true'`), and removes the container from the page.
     */
    method TransitionEnd()
      requires Valid() && attached
      modifies this`promptDisplayed, this`attached, this`closeListener, this`madeFocusable
      modifies currentElement
      ensures Valid()
      ensures old(closeListener) ==>
        && Phase() == Closed && !attached && !promptDisplayed && !closeListener
        && (currentElement != null ==> AttrsOf(currentElement) == StripFocusable(old(AttrsOf(currentElement))))
      ensures old(closeListener) && old(madeFocusable) ==>
        currentElement != null && currentElement.tabindex == attrsBefore.tabindex
      ensures !old(closeListener) ==>
        && attached && promptDisplayed == old(promptDisplayed) && !closeListener && madeFocusable == old(madeFocusable)
        && (currentElement != null ==> AttrsOf(currentElement) == old(AttrsOf(currentElement)))
      ensures currentElement != null ==>
        currentElement.value == old(currentElement.value) && currentElement.selection == old(currentElement.selection)
    {
      if closeListener {
        promptDisplayed := false;
        var e := currentElement;
        if e != null && e.removeTabindexFlag == Some("true") {
          e.tabindex := None;
          e.removeTabindexFlag := None;
        }
        if madeFocusable {
          StripUndoesMake(attrsBefore);
        }
        madeFocusable := false;
        attached := false;
        closeListener := false;
      }
    }

    /** Everything but the container's presence in the page is as it was at the start of the call. */
    twostate predicate OnlyDetached()
      reads this
    {
      && currentElement == old(currentElement) && isEditable == old(isEditable) && hasValue == old(hasValue)
      && selectionText == old(selectionText) && span == old(span) && controller == old(controller)
      && promptDisplayed == old(promptDisplayed) && showClass == old(showClass) && showScheduled == old(showScheduled)
      && closeListener == old(closeListener) && textarea == old(textarea) && copyButtonShown == old(copyButtonShown)
      && copyButtonScheduled == old(copyButtonScheduled) && spinnerListening == old(spinnerListening)
      && spinnerShown == old(spinnerShown) && pending == old(pending) && sent == old(sent) && alerts == old(alerts)
      && attrsBefore == old(attrsBefore) && madeFocusable == old(madeFocusable)
    }

    /** A later injection finds the container in the page and removes it; none of the close path runs. */
    method Detach()
      modifies this`attached
      ensures !attached && Phase() == Closed
    {
      attached := false;
    }

    /** The 100 ms timer after showing: the prompt fades in. */
    method ShowTimeout()
      requires Valid()
      modifies this`showClass, this`showScheduled
      ensures Valid()
      ensures old(showScheduled) ==> showClass && !showScheduled
      ensures !old(showScheduled) ==> showClass == old(showClass) && !showScheduled
    {
      if showScheduled {
        showClass := true;
        showScheduled := false;
      }
    }

    /** The 1000 ms timer after a fallback: the copy button appears. */
    method CopyButtonTimeout()
      requires Valid()
      modifies this`copyButtonShown, this`copyButtonScheduled
      ensures Valid()
      ensures copyButtonShown == (old(copyButtonShown) || old(copyButtonScheduled)) && !copyButtonScheduled
    {
      if copyButtonScheduled {
        copyButtonShown := true;
        copyButtonScheduled := false;
      }
    }

    /** A key pressed in the page, the shadow root or the prompt: Escape closes. */
    method KeyDown(key: string)
      requires Valid()
      modifies this`closeListener, this`showClass, controller
      ensures Valid()
      ensures key == "Escape" ==> closeListener && !showClass && (controller != null ==> controller.aborted)
      ensures key != "Escape" ==> closeListener == old(closeListener) && showClass == old(showClass)
      ensures key != "Escape" && controller != null ==> controller.aborted == old(controller.aborted)
    {
      if key == "Escape" {
        Close();
      }
    }

    /** A click in the search prompt: only one on the backdrop itself closes. */
    method PromptClick(onBackdrop: bool)
      requires Valid()
      modifies this`closeListener, this`showClass, controller
      ensures Valid()
      ensures onBackdrop ==> closeListener && !showClass && (controller != null ==> controller.aborted)
      ensures !onBackdrop ==> closeListener == old(closeListener) && showClass == old(showClass)
      ensures !onBackdrop && controller != null ==> controller.aborted == old(controller.aborted)
    {
      if onBackdrop {
        Close();
      }
    }

    /** The copy button: the textarea is selected and copied; a successful copy closes the overlay. */
    method CopyClick(copied: bool)
      requires Valid()
      modifies this`closeListener, this`showClass, controller
      ensures Valid()
      ensures copied ==> closeListener && !showClass && (controller != null ==> controller.aborted)
      ensures !copied ==> closeListener == old(closeListener) && showClass == old(showClass)
      ensures !copied && controller != null ==> controller.aborted == old(controller.aborted)
    {
      if copied {
        Close();
      }
    }
  }

  /**
   * One injection of the script: an overlay left by an earlier injection is
   * removed from the page (without its close path running, so nothing it
   * made focusable is restored), then a new session mounts, resolves the
   * active element and captures.
   */
  method Inject(previous: Session?, active: Element, selection: DocSelection)
    returns (session: Session, threw: bool)
    requires NestingFinite(active) && AncestryFinite(GetActiveElement(active))
    requires previous != null ==> previous.Valid()
    modifies previous, GetActiveElement(active)`tabindex, GetActiveElement(active)`removeTabindexFlag, selection
    ensures fresh(session) && session.Valid() && session.attached
    ensures previous != null ==> !previous.attached && previous.Phase() == Closed
    ensures previous != null ==> previous.OnlyDetached()
    ensures previous != null && !previous.madeFocusable ==> previous.Valid()
    ensures session.currentElement == GetActiveElement(active)
    ensures threw <==> Classify(session.currentElement).ConstReassigned?
    ensures threw ==> session.Phase() == Closed
    ensures !threw ==> session.Phase() == Opening && session.selectionText == Some(session.textarea)
    ensures session.controller == null && session.pending == {} && !session.spinnerShown
    ensures !session.closeListener
    ensures session.madeFocusable <==> Classify(session.currentElement).NotEditable?
    ensures session.madeFocusable ==> session.attrsBefore == old(AttrsOf(GetActiveElement(active)))
    ensures !session.madeFocusable ==> AttrsOf(session.currentElement) == old(AttrsOf(GetActiveElement(active)))
    ensures session.madeFocusable ==> AttrsOf(session.currentElement) == MakeFocusable(session.attrsBefore)
    ensures session.hasValue == session.currentElement.hasValueProperty
    ensures threw ==> session.selectionText == None && session.span == None && unchanged(selection)
    ensures !threw ==> session.isEditable == Classify(session.currentElement).IsEditable()
    ensures !threw && session.hasValue ==>
      && session.span == Some(CaptureSpan(session.currentElement.value, session.currentElement.selection))
      && session.selectionText == Some(CapturedText(session.currentElement.value, session.currentElement.selection))
      && unchanged(selection)
    ensures !threw && !session.hasValue ==>
      && session.selectionText == Some(selection.text)
      && (if session.isEditable && old(selection.IsCollapsed())
          then selection.text == session.currentElement.text && selection.anchorNode == session.currentElement
          else unchanged(selection))
  {
    var e := GetActiveElement(active);
    ghost var before := AttrsOf(e);
    if previous != null {
      previous.Detach();
    }
    session := new Session.Mount();
    assert AttrsOf(e) == before;
    threw := session.CaptureSelection(e, selection);
  }

  /**
   * Opening the overlay on an element and closing it again leaves the
   * element's `tabindex` as it was, unless the element already carried
   * `data-gpt-remove-tabindex="true"` and the capture did not rewrite that
   * flag (the element is editable), which makes the close strip a `tabindex`
   * the page set itself.
   */
  method OpenThenClose(active: Element, selection: DocSelection) returns (session: Session)
    requires NestingFinite(active) && AncestryFinite(GetActiveElement(active))
    modifies GetActiveElement(active), selection
    ensures fresh(session) && session.Valid() && session.Phase() == Closed
    ensures old(GetActiveElement(active).removeTabindexFlag) != Some("true") ==>
      GetActiveElement(active).tabindex == old(GetActiveElement(active).tabindex)
    ensures old(GetActiveElement(active).removeTabindexFlag) == Some("true") && !Classify(GetActiveElement(active)).NotEditable? ==>
      GetActiveElement(active).tabindex == None
  {
    var threw;
    session, threw := Inject(null, active, selection);
    session.Close();
    session.TransitionEnd();
  }

  /**
   * A second submit does not abort the first request: when the first
   * response arrives after the second was sent, its completion is still
   * written into a value-bearing element.
   */
  method SupersededResponseStillWrites(s: Session, first: string, second: string, response: Response,
                                       insertTextSucceeds: bool)
    returns (c: AbortController)
    requires s.Valid() && s.hasValue && |first| > 0 && |second| > 0 && response.ok
    modifies s`controller, s`pending, s`sent, s`spinnerShown, s`alerts, s`textarea, s`copyButtonScheduled
    modifies s`closeListener, s`showClass, s.currentElement, s.controller
    ensures s.Valid() && fresh(c) && !c.aborted && s.controller != c
    ensures s.currentElement == old(s.currentElement) && s.span == old(s.span)
    ensures s.currentElement.value == Splice(old(s.currentElement.value), s.span.value, CleanOutput(response.text))
  {
    var e := s.currentElement;
    ghost var before := e.value;
    assert BuildPrompt(first, s.textarea, true).Some?;
    s.Submit(first, true);
    c := s.controller;
    assert c in s.pending && !c.aborted;
    assert BuildPrompt(second, s.textarea, true).Some?;
    s.Submit(second, true);
    assert e.value == before && !c.aborted && c in s.pending && s.controller != c;
    s.Settle(c, Resolved(response), insertTextSucceeds);
  }

  /**
   * An overlay that a later injection removed never runs its close, so the
   * `tabindex="0"` it added stays. The next capture finds that `tabindex`,
   * takes it for the page's own and flags it `'false'`, so no later close
   * removes it: the element stays focusable for good.
   */
  method AbandonedOverlayKeepsTabindex(active: Element, selection: DocSelection)
    returns (first: Session, second: Session)
    requires NestingFinite(active) && AncestryFinite(GetActiveElement(active))
    modifies GetActiveElement(active), selection
    ensures old(AttrsOf(GetActiveElement(active))) == FocusAttrs(None, None) && Classify(GetActiveElement(active)).NotEditable? ==>
      AttrsOf(GetActiveElement(active)) == FocusAttrs(Some("0"), Some("false"))
    ensures second.Phase() == Closed && !first.attached
  {
    var threw;
    first, threw := Inject(null, active, selection);
    second, threw := Inject(first, active, selection);
    second.Close();
    second.TransitionEnd();
  }

  /**
   * Removing an overlay does not stop its closure: a fetch the earlier
   * session started and that was not aborted still writes its completion
   * into that session's value-bearing element after a new injection.
   */
  method DetachedSessionStillWrites(previous: Session, c: AbortController, active: Element,
                                    selection: DocSelection, response: Response, insertTextSucceeds: bool)
    returns (session: Session)
    requires NestingFinite(active) && AncestryFinite(GetActiveElement(active))
    requires previous.Valid() && previous.hasValue && !previous.madeFocusable
    requires c in previous.pending && !c.aborted && response.ok
    modifies previous, previous.currentElement, previous.controller
    modifies GetActiveElement(active)`tabindex, GetActiveElement(active)`removeTabindexFlag, selection
    ensures !previous.attached && fresh(session) && session.attached
    ensures previous.currentElement == old(previous.currentElement) && previous.span == old(previous.span)
    ensures previous.currentElement.value ==
      Splice(old(previous.currentElement.value), previous.span.value, CleanOutput(response.text))
  {
    var e := previous.currentElement;
    ghost var before := e.value;
    var threw;
    session, threw := Inject(previous, active, selection);
    assert e.value == before && c in previous.pending && !c.aborted;
    previous.Settle(c, Resolved(response), insertTextSucceeds);
  }
}

=== FILE: replacement.dfy ===
/**
 * Writing the cleaned completion back into a value-bearing element:
 * `value.substring(0, selectionStart) + output + value.substring(selectionEnd)`.
 */
module Replacement {
  import opened Wrappers
  import opened JsString
  import opened Dom
  import opened Capture

  /**
   * The new value. Within range, the characters before the span and after it
   * are kept, the span itself becomes `output`, and the length changes by
   * `|output| - (end - start)`.
   */
  function Splice(value: string, span: Span, output: string): (r: string)
    ensures 0 <= span.start <= span.end <= |value| ==>
      && |r| == |value| - (span.end - span.start) + |output|
      && r[..span.start] == value[..span.start]
      && r[span.start..span.start + |output|] == output
      && r[span.start + |output|..] == value[span.end..]
  {
    Substring(value, 0, span.start) + output + Substring(value, span.end, |value|)
  }

  /**
   * `selectionStart` and `selectionEnd` after the `value` setter: a value that
   * changes puts the caret at its end; an unchanged value, or an element that
   * reports no selection, keeps what it had.
   */
  function SelectionAfterSet(before: string, after: string, selection: Option<Span>): (r: Option<Span>)
    ensures r.None? <==> selection.None?
    ensures before == after ==> r == selection
    ensures before != after && r.Some? ==> r.value.start == r.value.end == |after|
  {
    if before != after && selection.Some? then Some(Span(|after|, |after|)) else selection
  }

  /**
   * After a splice that changed the value the caret sits at its end, so the
   * next capture in the same element takes the whole new value.
   */
  lemma NextCaptureTakesWholeValue(value: string, span: Span, output: string, selection: Option<Span>)
    requires Splice(value, span, output) != value
    ensures var after := Splice(value, span, output);
      CapturedText(after, SelectionAfterSet(value, after, selection)) == after
  {
    var after := Splice(value, span, output);
    CaretCapturesWholeValue(after, SelectionAfterSet(value, after, selection));
  }

  /** Capturing at a caret and then replacing leaves exactly the completion in the field. */
  lemma WholeFieldReplace(value: string, selection: Option<Span>, output: string)
    requires selection.None? || selection.value.start == selection.value.end
    ensures Splice(value, CaptureSpan(value, selection), output) == output
  {
    CaretCapturesWholeValue(value, selection);
  }

  /**
   * Replacing a captured range puts the completion in place of exactly the
   * captured text: the value reads `prefix + captured + suffix` before and
   * `prefix + output + suffix` after.
   */
  lemma RangeReplace(value: string, start: int, end: int, output: string)
    requires 0 <= start < end <= |value|
    ensures value == value[..start] + CapturedText(value, Some(Span(start, end))) + value[end..]
    ensures Splice(value, CaptureSpan(value, Some(Span(start, end))), output)
         == value[..start] + output + value[end..]
  {
    RangeCapturesSlice(value, start, end);
    assert value == value[..start] + value[start..end] + value[end..];
  }

  /**
   * `"hello world"` with `[6, 11)` selected captures `"world"`, and `"there"`
   * returned makes it `"hello there"` with the caret at its end, so the next
   * capture takes `"hello there"`.
   */
  lemma HelloThere()
    ensures CapturedText("hello world", Some(Span(6, 11))) == "world"
    ensures Splice("hello world", CaptureSpan("hello world", Some(Span(6, 11))), "there") == "hello there"
    ensures SelectionAfterSet("hello world", "hello there", Some(Span(6, 11))) == Some(Span(11, 11))
    ensures CapturedText("hello there", SelectionAfterSet("hello world", "hello there", Some(Span(6, 11)))) == "hello there"
  {
    RangeReplace("hello world", 6, 11, "there");
    assert "hello world" != "hello there" by { assert "hello world"[6] != "hello there"[6]; }
    NextCaptureTakesWholeValue("hello world", Span(6, 11), "there", Some(Span(6, 11)));
  }

  /** Replacing the captured span with what it held gives the value back. */
  lemma SpliceCapturedIsIdentity(value: string, selection: Option<Span>)
    requires selection.Some? ==> 0 <= selection.value.start <= selection.value.end <= |value|
    ensures Splice(value, CaptureSpan(value, selection), CapturedText(value, selection)) == value
  {
    var span := CaptureSpan(value, selection);
    assert value == value[..span.start] + value[span.start..span.end] + value[span.end..];
  }
}

=== FILE: wrappers.dfy ===
/** Optional values, standing for JavaScript's `null` / `undefined`. */
module Wrappers {

  datatype Option<+T> = None | Some(value: T)
}
